=== FILE: README.md ===
# Borrow-and-transfer: a Dafny model

This project models the core of a loan service. An account owner (or an
administrator on the owner's behalf) borrows money from a source account
into a destination account. The service:

- checks the request body;
- runs a fixed sequence of gates: the destination exists, the caller owns
  it (owner path only), the amount is within the credit limit, the source
  exists, and the source balance covers the amount;
- debits the source and credits the destination;
- registers the loan with the external loan-management system;
- answers with a success body, or raises an exception that the global
  handler turns into an HTTP error body.

The whole method runs in one database transaction, so any exception undoes
every database change. In the model the registry is restored as well.
That holds because every failing write raises its exception inside
`debit` or `credit`, before the loan is registered (see "## Left out").

The model is functional. Accounts are immutable records in a
`map<AccountId, Account>`. Money is an `int` count of 0.0001, the scale of
the DECIMAL(19, 4) balance column. Each Java call that may throw becomes a
function returning `Result<T, Failure>`. `Failure` has one variant per
exception class.

Modules (`Money` and `Wrappers` have no counterpart source file; `Errors`
covers the handler and the exception classes):

- `Money`: amounts in units of 0.0001. It renders an amount as text at
  scale 4 and parses it back.
- `Errors`: the exception classes, their messages and
  `GlobalExceptionHandler`.
- `Accounts`: the `Account` record, `AccountStatus`, and the
  optimistic-lock update rule.
- `AccountService`: `getAccount`, `exists`, `debit` and `credit` as pure
  functions on the account map.
- `LoanRequests`: the request body and its bean-validation constraints.
- `AuthContext`: `getCurrentUserID`, `hasRole` and `isAdmin`. They take
  an abstract `Option<Authentication>` as a parameter. An authority's name
  may be null, and the role check then fails with a `NullPointerException`.
- `LoanRegistry`: `registerLoan` as an effect that may succeed or fail.
- `LoanController`: `borrowMoney` and `adminBorrowMoney`, their common
  gate sequence, the transfer and the transaction boundary.
- `Wrappers`: `Option` and `Result`.

Inputs that the source takes from the environment are parameters:

- the authentication in the security context;
- the credit limit returned by `getCreditLimit`;
- whether the loan-management system accepts the next registration;
- the generated loan id;
- the current time.

Interpretation choices, where the code leaves something open:

- `AccountService` is an interface whose implementation is not part of
  this model. `debit` and `credit` are modelled from their documented
  contracts.
  - Each is one versioned write of the named account, looked up by id.
    The write uses the account's current stored version, since the model
    is sequential. The `Account` object the caller holds is left as it
    was read.
  - Under that assumption, a transfer from an account to itself advances
    that account's version twice.
  - A write also fails when the new balance does not fit the
    DECIMAL(19, 4) column (model/Account.java:47).
- The response's `newBalance` is the destination balance read at the
  first gate plus the amount (controller/LoanController.java:195). The
  destination record is treated as a value read once.
  `NewBalanceMatchesStoreIffDistinct` shows that this equals the stored
  balance after the transfer exactly when the source is a different
  account.
- `@NotBlank` is modelled with `String.trim` semantics. A string is blank
  when every character is at most U+0020.

What the code does not do:

- A failed loan registration rolls the whole transfer back, because
  `rollbackFor = Exception.class` applies. There is no
  partial-success state.
- Frozen and Closed accounts are not rejected. The code never reads the
  status.
- There is no idempotency ledger and no retry on a version conflict.
- A zero or negative amount is refused by bean validation, which requires
  at least 0.01. The controller itself has no such check.

## Model

| member | source | states |
|---|---|---|
| `LoanController.BorrowMoney` | src/main/java/vnd/credit/loans/controller/LoanController.java:107-203 | Any exception leaves the accounts and registry exactly as before. A success means the body was valid and a user was authenticated. It returns SUCCESS with the request's destination, source and amount, and `newBalance` = destination balance as read + amount. Non-negative balances and well-formed rows are preserved. |
| `LoanController.AdminBorrowMoney` | src/main/java/vnd/credit/loans/controller/LoanController.java:219-285 | Only callers with ADMIN reach it. Same all-or-nothing and response guarantees, with the admin message and `processedBy` = the admin's id. It never raises the ownership exception. |
| `LoanController.SucceedsIff` | src/main/java/vnd/credit/loans/controller/LoanController.java:121-183 | On either path, a request succeeds iff it is valid and authenticated, every gate passes (`>` against the limit, `<` against the balance), the destination's new balance fits its column, and the registry accepts. |
| `LoanController.DestinationCheckedFirst` | src/main/java/vnd/credit/loans/controller/LoanController.java:121-127 | A missing destination yields `AccountNotFound(accountId)` with no change, whatever the owner, limit or source. |
| `LoanController.OwnerMismatchRejected` | src/main/java/vnd/credit/loans/controller/LoanController.java:131-136 | Owner path: if the destination owner is not `Some(current user)` (a null owner included), the result is the ownership exception and no change. |
| `LoanController.CreditLimitGate` | src/main/java/vnd/credit/loans/controller/LoanController.java:144-150 | An amount above the limit yields `CreditLimitExceeded(amount, limit)` with no change, before the source is examined. An amount equal to the limit never yields that exception. |
| `LoanController.SourceCheckedAfterLimit` | src/main/java/vnd/credit/loans/controller/LoanController.java:153-157 | Once the limit gate passes, a missing source yields `AccountNotFound(sourceAccountId)` with no change. |
| `LoanController.InsufficientBalanceRejected` | src/main/java/vnd/credit/loans/controller/LoanController.java:162-169 | A source balance below the amount yields `InsufficientBalance(balance, amount)` with no change. |
| `LoanController.ExactBalanceEmptiesSource` | src/main/java/vnd/credit/loans/controller/LoanController.java:159-169 | When the source is a different account from the destination and the transfer goes through (the destination's new balance fits its column and the registry accepts), borrowing exactly the source balance succeeds and leaves the source at zero. |
| `LoanController.SuccessMovesMoney` | src/main/java/vnd/credit/loans/controller/LoanController.java:179-183 | On success the source loses the amount and the destination gains it. When they are the same account its balance is unchanged. Every other account is untouched, and one loan with the amount and the borrower is appended to the registry. |
| `LoanController.ConservesMoney` | src/main/java/vnd/credit/loans/controller/LoanController.java:175-180 | The sum of all balances after any request, success or failure, equals the sum before. |
| `LoanController.RegistrationFailureRollsBack` | src/main/java/vnd/credit/loans/controller/LoanController.java:89-108 | When the registry refuses the loan, the method body has already changed the accounts, but the request still ends with the original state and a registration failure. |
| `LoanController.NewBalanceMatchesStoreIffDistinct` | src/main/java/vnd/credit/loans/controller/LoanController.java:190-199 | The reported `newBalance` equals the destination's stored balance after the request iff the source is a different account. |
| `LoanController.AdminSkipsOnlyOwnership` | src/main/java/vnd/credit/loans/controller/LoanController.java:231-258 | For a destination the admin owns, the admin and owner paths leave the same state, succeed together and fail with the same exception. |
| `LoanController.AdminRegistersForOwner` | src/main/java/vnd/credit/loans/controller/LoanController.java:266-280 | An admin success registers the loan to the destination's owner, not the admin, and puts the admin's id in `processedBy`. |
| `AccountService.GetAccount` | src/main/java/vnd/credit/loans/service/AccountService.java:20-26 | Returns the stored account for the id. In a well-formed store it returns null exactly when no account carries that id. |
| `AccountService.Exists` | src/main/java/vnd/credit/loans/service/AccountService.java:53-59 | True exactly when `getAccount` returns an account. |
| `AccountService.Debit` | src/main/java/vnd/credit/loans/service/AccountService.java:28-39 | Amount ≤ 0 gives an illegal argument. Amount above the balance gives an illegal state. Otherwise it succeeds iff 0 < amount ≤ balance, the balance drops by exactly the amount and stays ≥ 0, the version advances, and no other account changes. |
| `AccountService.Credit` | src/main/java/vnd/credit/loans/service/AccountService.java:41-51 | Amount ≤ 0 gives an illegal argument. Otherwise it succeeds regardless of funds (only a balance past the column fails), the balance rises by exactly the amount, and no other account changes. |
| `AccountService.DebitThenCreditConserves` | src/main/java/vnd/credit/loans/controller/LoanController.java:179-180 | A debit then a credit of the same amount keeps the total of all balances, also when both name the same account. |
| `Accounts.NewAccount` | src/main/java/vnd/credit/loans/model/Account.java:72-96 | A new account keeps the owner and balance as given, is ACTIVE at version 0, and meets the NOT NULL / DECIMAL(19, 4) constraints iff the owner is present and the balance fits. |
| `Accounts.Update` | src/main/java/vnd/credit/loans/model/Account.java:50-86 | A write from a stale version is refused as an optimistic-lock failure. A successful write advances the version by one, sets `updatedAt`, keeps `id` and `createdAt`, and makes the read version stale. |
| `Accounts.AtMostOneOfTwoWriters` | src/main/java/vnd/credit/loans/model/Account.java:56-58 | Of two writes issued from the same read version, whichever goes second is refused. |
| `LoanRequests.Validate` | src/main/java/vnd/credit/loans/dto/LoanRequest.java:39-51 | The request is accepted iff the source id is present and not blank and the amount is present and ≥ 0.01. Each field is reported at most once, and exactly the failing fields are reported. "Source account ID is required" is reported iff the source id is null or blank. "Loan amount is required" is reported iff the amount is null. "Loan amount must be greater than zero" is reported iff the amount is present and below 0.01. |
| `LoanRequests.BlankSourceRejected` | src/main/java/vnd/credit/loans/dto/LoanRequest.java:39-40 | A null, empty or whitespace-only source id is invalid. |
| `LoanRequests.AmountBoundary` | src/main/java/vnd/credit/loans/dto/LoanRequest.java:50-51 | 0.0099 is refused as too small, 0.01 is accepted, and a null amount is refused as missing. |
| `LoanRequests.DocumentedExamplesValid` | src/main/java/vnd/credit/loans/dto/LoanRequest.java:45-48 | 100.00, 1500.50 and 0.01 with a non-blank source are valid. |
| `Errors.Handle` | src/main/java/vnd/credit/loans/exception/GlobalExceptionHandler.java:46-170 | Total map to the statuses {400, 403, 404, 422, 500}, stated in both directions: 403 iff unauthorized, 404 iff not found, 422 iff insufficient balance, 400 iff validation or credit limit, 500 iff no dedicated handler. Errors map present iff validation. Handled exceptions carry their own message; the catch-all carries the fixed generic text. |
| `Errors.FieldErrorMapKeys` | src/main/java/vnd/credit/loans/exception/GlobalExceptionHandler.java:48-54 | The field-error map's keys are exactly the fields that failed. |
| `Errors.FieldErrorMapLastWins` | src/main/java/vnd/credit/loans/exception/GlobalExceptionHandler.java:50-54 | A field's entry is the message of its last reported error. |
| `Errors.CatchAllIsOpaque` | src/main/java/vnd/credit/loans/exception/GlobalExceptionHandler.java:157-170 | Any two exceptions without a dedicated handler produce identical bodies. |
| `Money.Format` | src/main/java/vnd/credit/loans/controller/LoanController.java:148-149 | Renders an amount at scale 4, with a minus sign iff it is negative and a point before the last four digits. The text parses back to the same amount. |
| `Errors.LimitMessage` | src/main/java/vnd/credit/loans/controller/LoanController.java:148-149 | "Loan amount ", the rendered requested amount, " exceeds credit limit ", then the rendered limit at the very end. |
| `Errors.BalanceMessage` | src/main/java/vnd/credit/loans/controller/LoanController.java:166-168 | "Insufficient balance. Available: ", the rendered balance, ", Required: ", then the rendered required amount at the very end. |
| `Errors.LimitMessageReadsBack` | src/main/java/vnd/credit/loans/controller/LoanController.java:148-149 | Both the requested amount and the limit can be read back out of the limit message. |
| `Errors.BalanceMessageReadsBack` | src/main/java/vnd/credit/loans/controller/LoanController.java:166-168 | Both the available balance and the required amount can be read back out of the balance message. |
| `Errors.ExceptionMessage` | src/main/java/vnd/credit/loans/exception/AccountNotFoundException.java:38-40 | The not-found message is "Account not found: " followed by exactly the id. The limit and balance exceptions carry their two-amount messages, and an access refusal carries the caller's text. |
| `Errors.NotFoundNamesAccount` | src/main/java/vnd/credit/loans/exception/AccountNotFoundException.java:38-41 | The 404 body's message is "Account not found: " followed by the id. |
| `AuthContext.GetCurrentUserId` | src/main/java/vnd/credit/loans/util/AuthContext.java:50-60 | Fails with an illegal state iff the authentication is absent or not authenticated. Otherwise returns its name. |
| `AuthContext.AnyAuthorityEquals` | src/main/java/vnd/credit/loans/util/AuthContext.java:78-80 | The stream's `anyMatch`, visiting the authorities in order: true iff an authority equal to the target comes before any null name, and a `NullPointerException` iff a null name comes before any match. |
| `AuthContext.AnyAuthorityEqualsWithoutNulls` | src/main/java/vnd/credit/loans/util/AuthContext.java:78-80 | With no null names, `anyMatch` never throws and is true iff the target is among the authorities. |
| `AuthContext.HasRole` | src/main/java/vnd/credit/loans/util/AuthContext.java:71-81 | False without an authentication. Otherwise true iff "ROLE_" + role is reached before any null authority name, and a `NullPointerException` iff a null name is reached first. |
| `AuthContext.IsAdmin` | src/main/java/vnd/credit/loans/util/AuthContext.java:88-90 | True iff an authentication is present and "ROLE_ADMIN" is reached before any null authority name. It fails with a `NullPointerException` iff a null name is reached first. |
| `AuthContext.HasRoleIgnoresAuthenticatedFlag` | src/main/java/vnd/credit/loans/util/AuthContext.java:71-81 | The role check gives the same answer whether or not the authentication is authenticated. |
| `AuthContext.RoleNeedsExactPrefixedName` | src/main/java/vnd/credit/loans/util/AuthContext.java:78-80 | "ADMIN" without the prefix or "ROLE_admin" in another case does not make an admin. "ROLE_ADMIN" among other authorities does. |
| `AuthContext.NullAuthorityOnlyBeforeMatch` | src/main/java/vnd/credit/loans/util/AuthContext.java:78-80 | A null authority name before "ROLE_ADMIN" throws. After the match it is never reached, so the answer is true. |
| `LoanRegistry.RegisterLoan` | src/main/java/vnd/credit/loans/service/LoanManagementService.java:37-61 | Appends the loan iff the system is available, and otherwise throws a registration failure. |

## Left out

- HTTP framing: `ResponseEntity`, the 201 status and the request mapping. The error bodies' timestamps are also left out.
- Logging, including the idempotency key, which the controller only logs. There is no replay or deduplication to model.
- The role check: `@PreAuthorize` machinery is replaced by the precondition `IsAdmin(auth) == Ok(true)` on `AdminBorrowMoney`.
- Bean-validation machinery: `Validate` states the constraints. The order in which the validator reports violations is taken as source field first.
- Spring's transaction machinery: `Transactional` returns the starting state on any exception.
- Concurrency under optimistic locking: only the sequential compare-version-then-write rule is modelled (`Accounts.Update`).
- Debit: the Java interface receives the `Account` object read by the caller. The model takes its id (so the account is present) and writes against the current stored version. So a stale object from a concurrent writer is not modelled.
- Debit, Credit: the text of their illegal-argument and illegal-state messages is left out, since the implementation is not part of this model. The texts used are placeholders, and these exceptions reach clients only as the generic 500 body.
- `getCreditLimit` is an input value. Its remote failures are not modelled; they would surface as the generic 500.
- `getLoan` and the `LoanDetails` record are not modelled.
- `registerLoan` is an abstract effect. Its only outcomes are "appended" or "failed".
- `UUID.randomUUID` and `Instant.now`: the loan id and the time are inputs.
- `LoanResponse` builder, getters and setters: the datatype's constructor and fields stand for them.
- `LoanRequest` constructor, getters and setters: the same.
- `Account` getters and setters: the same.
- `AuthContext.getAuthentication` is the authentication parameter itself.
- Amounts with more than four fraction digits cannot be represented. Money is counted in units of 0.0001.
- LoanController.BorrowMoney, LoanController.AdminBorrowMoney: `debit` and `credit` are assumed to write the row by id and leave the caller's `Account` object untouched. If the implementation instead mutates the object it is passed, line 195 reports the destination balance plus twice the amount when the accounts differ. A transfer from an account to itself would then be flushed as one version bump, not two.
- LoanController.BorrowMoney, LoanController.AdminBorrowMoney: each write is assumed to be flushed, and its failure raised, inside `debit` or `credit`. `registerLoan` is a remote call outside the database transaction. If a write were rejected only at commit (a column overflow, or a version conflict at flush), the money would roll back but the loan would stay registered. The model does not cover that outcome.
- `Money.Format`, `Errors.LimitMessage`, `Errors.BalanceMessage`, `Errors.ExceptionMessage`: amounts in the credit-limit and insufficient-balance messages are always rendered at scale 4. Java's `%s` calls `BigDecimal.toString`, which differs in two ways:
  - It keeps the scale the value arrived with. A limit of 500 prints as "500", not "500.0000", and a request of 600.00 prints as "600.00". Only a balance read from the DECIMAL(19, 4) column prints at scale 4.
  - It switches to exponent notation when the scale is negative or the exponent is small enough. A limit of `5E+2` prints as "5E+2".
  The model keeps only the numeric value, which is what can be read back out of the message.
- The version is a Java `Long`. Its wrap-around after 2^63 updates is not modelled.

=== FILE: account_service.dfy ===
/** The account store (service/AccountService.java) as pure operations on a
    map from account id to account. */
module AccountService {
  import opened Wrappers
  import opened Money
  import opened Errors
  import opened Accounts

  type Store = map<AccountId, Account>

  /** Every entry is stored under its own id and meets the column constraints. */
  predicate WellFormed(s: Store) {
    forall id :: id in s ==> s[id].id == id && Storable(s[id])
  }

  /** No balance is negative. */
  predicate NonNegative(s: Store) {
    forall id :: id in s ==> s[id].balance >= 0
  }

  const NonPositiveAmount: string := "Amount must be positive"
  const InsufficientFunds: string := "Insufficient balance"

  /** `getAccount`: the account, or null when no account has that id. */
  function GetAccount(s: Store, id: AccountId): (r: Option<Account>)
    ensures r.Some? ==> id in s && r.value == s[id]
    ensures WellFormed(s) ==> (r.None? <==> forall k :: k in s ==> s[k].id != id)
  {
    if id in s then Some(s[id]) else None
  }

  /** `exists`: agrees with `getAccount` returning an account. */
  function Exists(s: Store, id: AccountId): (b: bool)
    ensures b <==> GetAccount(s, id).Some?
  {
    id in s
  }

  /** `debit`: a non-positive amount is an illegal argument and an amount
      above the balance an illegal state; otherwise the named account's
      balance drops by exactly the amount, never below zero, and no other
      account changes. */
  function Debit(s: Store, id: AccountId, amount: Amount, now: Instant): (r: Result<Store, Failure>)
    requires id in s
    ensures amount <= 0 ==> r == Err(IllegalArgument(NonPositiveAmount))
    ensures amount > 0 && s[id].balance < amount ==> r == Err(IllegalState(InsufficientFunds))
    ensures FitsColumn(s[id].balance) ==> (r.Ok? <==> 0 < amount <= s[id].balance)
    ensures r.Ok? ==> id in r.value && r.value == s[id := r.value[id]]
    ensures r.Ok? ==> r.value[id].balance == s[id].balance - amount && r.value[id].balance >= 0
    ensures r.Ok? ==> r.value[id].id == s[id].id && r.value[id].owner == s[id].owner
    ensures r.Ok? ==> r.value[id].version == s[id].version + 1
    ensures r.Ok? && WellFormed(s) ==> WellFormed(r.value)
  {
    if amount <= 0 then Err(IllegalArgument(NonPositiveAmount))
    else if s[id].balance < amount then Err(IllegalState(InsufficientFunds))
    else
      var a := s[id];
      match Update(a, a.version, a.(balance := a.balance - amount), now)
      case Ok(written) => Ok(s[id := written])
      case Err(e) => Err(e)
  }

  /** `credit`: a non-positive amount is an illegal argument; otherwise the
      named account's balance rises by exactly the amount, and no other
      account changes. It never fails for lack of funds: apart from the
      amount's sign, only a balance past the column's range is refused. */
  function Credit(s: Store, id: AccountId, amount: Amount, now: Instant): (r: Result<Store, Failure>)
    requires id in s
    ensures amount <= 0 ==> r == Err(IllegalArgument(NonPositiveAmount))
    ensures r.Ok? <==> amount > 0 && FitsColumn(s[id].balance + amount)
    ensures r.Ok? ==> id in r.value && r.value == s[id := r.value[id]]
    ensures r.Ok? ==> r.value[id].balance == s[id].balance + amount
    ensures r.Ok? ==> r.value[id].id == s[id].id && r.value[id].owner == s[id].owner
    ensures r.Ok? ==> r.value[id].version == s[id].version + 1
    ensures r.Ok? && WellFormed(s) ==> WellFormed(r.value)
  {
    if amount <= 0 then Err(IllegalArgument(NonPositiveAmount))
    else
      var a := s[id];
      match Update(a, a.version, a.(balance := a.balance + amount), now)
      case Ok(written) => Ok(s[id := written])
      case Err(e) => Err(e)
  }

  /** The sum of all balances in the store. */
  ghost function TotalBalance(s: Store): int
    decreases |s|
  {
    if s == map[] then 0
    else
      var k :| k in s;
      s[k].balance + TotalBalance(s - {k})
  }

  /** The total can be taken apart at any account, not only the one the
      definition happens to pick. */
  lemma {:induction false} TotalBalanceRemove(s: Store, k: AccountId)
    requires k in s
    ensures TotalBalance(s) == s[k].balance + TotalBalance(s - {k})
    decreases |s|
  {
    var j :| j in s && TotalBalance(s) == s[j].balance + TotalBalance(s - {j});
    if j != k {
      assert |s - {j}| < |s|;
      TotalBalanceRemove(s - {j}, k);
      TotalBalanceRemove(s - {k}, j);
      assert s - {j} - {k} == s - {k} - {j};
    }
  }

  /** Replacing one account changes the total by exactly its balance change. */
  lemma TotalBalanceUpdate(s: Store, k: AccountId, a: Account)
    requires k in s
    ensures TotalBalance(s[k := a]) == TotalBalance(s) - s[k].balance + a.balance
  {
    TotalBalanceRemove(s, k);
    TotalBalanceRemove(s[k := a], k);
    assert s[k := a] - {k} == s - {k};
  }

  /** A debit followed by a credit of the same amount moves money without
      creating or destroying any, whether or not the two accounts are the
      same. */
  lemma DebitThenCreditConserves(s: Store, from: AccountId, to: AccountId, amount: Amount, t1: Instant, t2: Instant)
    requires from in s && to in s
    requires Debit(s, from, amount, t1).Ok?
    requires Credit(Debit(s, from, amount, t1).value, to, amount, t2).Ok?
    ensures TotalBalance(Credit(Debit(s, from, amount, t1).value, to, amount, t2).value) == TotalBalance(s)
  {
    var s1 := Debit(s, from, amount, t1).value;
    var s2 := Credit(s1, to, amount, t2).value;
    TotalBalanceUpdate(s, from, s1[from]);
    TotalBalanceUpdate(s1, to, s2[to]);
  }
}

=== FILE: accounts.dfy ===
/** The account record (model/Account.java) and its optimistic-lock update
    rule. */
module Accounts {
  import opened Wrappers
  import opened Money
  import opened Errors

  type AccountId = string
  type UserId = string

  /** A point in time; the clock is an input of every operation that stamps one. */
  type Instant = int

  /** Account lifecycle status. */
  datatype AccountStatus = Active | Frozen | Closed

  /** A bank account. `owner` is a nullable Java field, hence an Option;
      `version` is the optimistic-lock stamp. */
  datatype Account = Account(
    id: AccountId,
    owner: Option<UserId>,
    balance: Amount,
    version: nat,
    createdAt: Instant,
    updatedAt: Instant,
    status: AccountStatus)

  /** The column constraints every stored row meets: owner and balance are
      NOT NULL and the balance fits DECIMAL(19, 4). */
  predicate Storable(a: Account) {
    a.owner.Some? && FitsColumn(a.balance)
  }

  /** `new Account(owner, balance)` as it is first persisted under `id` at
      time `now`: status ACTIVE, version 0, both timestamps `now`. */
  function NewAccount(id: AccountId, owner: Option<UserId>, balance: Amount, now: Instant): (a: Account)
    ensures a.id == id && a.owner == owner && a.balance == balance
    ensures a.status == Active && a.version == 0
    ensures a.createdAt == now && a.updatedAt == now
    ensures Storable(a) <==> owner.Some? && FitsColumn(balance)
  {
    Account(id, owner, balance, 0, now, now, Active)
  }

  /** Writes `next` over `stored` on behalf of a writer that read version
      `readVersion`. A stale read is refused; otherwise the row takes `next`'s
      owner, balance and status, the version advances by one, `updatedAt`
      becomes `now`, and `id` and `createdAt` keep their stored values. A
      balance outside the column is refused by the database. */
  function Update(stored: Account, readVersion: nat, next: Account, now: Instant): (r: Result<Account, Failure>)
    ensures r.Ok? <==> readVersion == stored.version && FitsColumn(next.balance)
    ensures readVersion != stored.version ==> r == Err(OptimisticLock(stored.id))
    ensures r.Ok? ==> r.value.id == stored.id && r.value.createdAt == stored.createdAt
    ensures r.Ok? ==> r.value.version == stored.version + 1 && r.value.version != readVersion
    ensures r.Ok? ==> r.value.updatedAt == now
    ensures r.Ok? ==> r.value.owner == next.owner && r.value.balance == next.balance && r.value.status == next.status
  {
    if readVersion != stored.version then Err(OptimisticLock(stored.id))
    else if !FitsColumn(next.balance) then Err(ColumnOverflow(stored.id))
    else Ok(Account(stored.id, next.owner, next.balance, stored.version + 1, stored.createdAt, now, next.status))
  }

  /** Two writers that read the same version: whichever writes first wins,
      and the other is refused as stale. */
  lemma AtMostOneOfTwoWriters(stored: Account, readVersion: nat, a: Account, b: Account, t1: Instant, t2: Instant)
    ensures Update(stored, readVersion, a, t1).Ok? ==>
      Update(Update(stored, readVersion, a, t1).value, readVersion, b, t2).Err?
    ensures Update(stored, readVersion, b, t1).Ok? ==>
      Update(Update(stored, readVersion, b, t1).value, readVersion, a, t2).Err?
  {
  }
}

=== FILE: auth_context.dfy ===
/** The authentication context (util/AuthContext.java) over an abstract
    authentication value; the thread-local security context becomes a
    parameter. */
module AuthContext {
  import opened Wrappers
  import opened Errors

  /** What the model needs of Spring's `Authentication`. Each authority is
      its `getAuthority()` name, which Spring allows to be null. */
  datatype Authentication = Authentication(name: string, authenticated: bool, authorities: seq<Option<string>>)

  const RolePrefix: string := "ROLE_"
  const AdminRole: string := "ADMIN"
  const NoAuthenticatedUser: string := "No authenticated user found"

  /** `getCurrentUserID`: fails with an illegal state when there is no
      authentication or it is not authenticated, and otherwise returns the
      authentication's name. */
  function GetCurrentUserId(auth: Option<Authentication>): (r: Result<string, Failure>)
    ensures r.Err? <==> auth.None? || !auth.value.authenticated
    ensures r.Err? ==> r.error == IllegalState(NoAuthenticatedUser)
    ensures r.Ok? ==> r.value == auth.value.name
  {
    if auth.None? || !auth.value.authenticated then Err(IllegalState(NoAuthenticatedUser))
    else Ok(auth.value.name)
  }

  /** Some authority before position `i` is null. */
  predicate NullBefore(authorities: seq<Option<string>>, i: int)
    requires 0 <= i <= |authorities|
  {
    None in authorities[..i]
  }

  /** Visiting the authorities in order, one named `target` comes before any
      null name. */
  predicate ReachesMatch(authorities: seq<Option<string>>, target: string) {
    exists i :: 0 <= i < |authorities| && authorities[i] == Some(target) && !NullBefore(authorities, i)
  }

  /** Visiting the authorities in order, a null name comes before any
      authority named `target`. */
  predicate ReachesNull(authorities: seq<Option<string>>, target: string) {
    exists i :: 0 <= i < |authorities| && authorities[i] == None && Some(target) !in authorities[..i]
  }

  /** The stream's `anyMatch(a -> a.getAuthority().equals(target))`. The
      authorities are visited in order and the first match ends the stream;
      an authority whose name is null, reached before any match, makes the
      call throw a `NullPointerException`. */
  function AnyAuthorityEquals(authorities: seq<Option<string>>, target: string): (r: Result<bool, Failure>)
    ensures r == Ok(true) <==> ReachesMatch(authorities, target)
    ensures r.Err? <==> ReachesNull(authorities, target)
    ensures r.Err? ==> r.error == NullReference
    decreases |authorities|
  {
    if authorities == [] then Ok(false)
    else if authorities[0] == None then Err(NullReference)
    else if authorities[0] == Some(target) then
      assert authorities[..0] == [];
      Ok(true)
    else
      SkipNonMatchingHead(authorities, target);
      AnyAuthorityEquals(authorities[1..], target)
  }

  /** A first authority that is neither null nor `target` does not decide
      the stream. */
  lemma SkipNonMatchingHead(authorities: seq<Option<string>>, target: string)
    requires authorities != [] && authorities[0].Some? && authorities[0] != Some(target)
    ensures ReachesMatch(authorities, target) <==> ReachesMatch(authorities[1..], target)
    ensures ReachesNull(authorities, target) <==> ReachesNull(authorities[1..], target)
  {
    var rest := authorities[1..];
    forall i | 0 <= i < |rest|
      ensures authorities[..i + 1] == [authorities[0]] + rest[..i]
    {
    }
    if ReachesMatch(authorities, target) {
      var i :| 0 <= i < |authorities| && authorities[i] == Some(target) && !NullBefore(authorities, i);
      assert rest[i - 1] == Some(target) && !NullBefore(rest, i - 1);
    }
    if ReachesMatch(rest, target) {
      var i :| 0 <= i < |rest| && rest[i] == Some(target) && !NullBefore(rest, i);
      assert authorities[i + 1] == Some(target) && !NullBefore(authorities, i + 1);
    }
    if ReachesNull(authorities, target) {
      var i :| 0 <= i < |authorities| && authorities[i] == None && Some(target) !in authorities[..i];
      assert rest[i - 1] == None && Some(target) !in rest[..i - 1];
    }
    if ReachesNull(rest, target) {
      var i :| 0 <= i < |rest| && rest[i] == None && Some(target) !in rest[..i];
      assert authorities[i + 1] == None && Some(target) !in authorities[..i + 1];
    }
  }

  /** With no null authority names, `anyMatch` is plain membership. */
  lemma AnyAuthorityEqualsWithoutNulls(authorities: seq<Option<string>>, target: string)
    requires None !in authorities
    ensures AnyAuthorityEquals(authorities, target) == Ok(Some(target) in authorities)
  {
    if Some(target) in authorities {
      var i :| 0 <= i < |authorities| && authorities[i] == Some(target);
      assert !NullBefore(authorities, i);
    }
  }

  /** `hasRole`: false without an authentication; otherwise `anyMatch` over
      its authorities for "ROLE_" followed by `role`. */
  function HasRole(auth: Option<Authentication>, role: string): (r: Result<bool, Failure>)
    ensures auth.None? ==> r == Ok(false)
    ensures r == Ok(true) <==> auth.Some? && ReachesMatch(auth.value.authorities, RolePrefix + role)
    ensures r.Err? <==> auth.Some? && ReachesNull(auth.value.authorities, RolePrefix + role)
  {
    if auth.None? then Ok(false)
    else AnyAuthorityEquals(auth.value.authorities, RolePrefix + role)
  }

  /** `isAdmin`: true when "ROLE_ADMIN" is reached before any null authority
      name, and a `NullPointerException` when a null name is reached first. */
  function IsAdmin(auth: Option<Authentication>): (r: Result<bool, Failure>)
    ensures r == Ok(true) ==> auth.Some?
    ensures r == Ok(true) <==> auth.Some? && ReachesMatch(auth.value.authorities, "ROLE_ADMIN")
    ensures r.Err? <==> auth.Some? && ReachesNull(auth.value.authorities, "ROLE_ADMIN")
    ensures r.Err? ==> r.error == NullReference
  {
    assert RolePrefix + AdminRole == "ROLE_ADMIN";
    HasRole(auth, AdminRole)
  }

  /** The role check ignores whether the authentication is authenticated. */
  lemma HasRoleIgnoresAuthenticatedFlag(a: Authentication, flag: bool, role: string)
    ensures HasRole(Some(a), role) == HasRole(Some(a.(authenticated := flag)), role)
  {
  }

  /** The role names are compared exactly: an authority without the prefix,
      or one differing in case, does not grant the role. */
  lemma RoleNeedsExactPrefixedName(name: string, authenticated: bool)
    ensures IsAdmin(Some(Authentication(name, authenticated, [Some("ADMIN")]))) == Ok(false)
    ensures IsAdmin(Some(Authentication(name, authenticated, [Some("ROLE_admin")]))) == Ok(false)
    ensures IsAdmin(Some(Authentication(name, authenticated, [Some("ROLE_USER"), Some("ROLE_ADMIN")]))) == Ok(true)
  {
  }

  /** A null authority name throws only when the stream reaches it before
      the match. */
  lemma NullAuthorityOnlyBeforeMatch(name: string, authenticated: bool)
    ensures IsAdmin(Some(Authentication(name, authenticated, [None, Some("ROLE_ADMIN")]))) == Err(NullReference)
    ensures IsAdmin(Some(Authentication(name, authenticated, [Some("ROLE_ADMIN"), None]))) == Ok(true)
  {
  }
}

=== FILE: errors.dfy ===
/** The exceptions of the borrow path and the global handler that turns each
    into an HTTP error body (exception/GlobalExceptionHandler.java). */
module Errors {
  import opened Wrappers
  import opened Money

  /** One rejected request field and the constraint's message. */
  datatype FieldError = FieldError(field: string, message: string)

  /** Every exception the borrow path can raise, one variant per Java class. */
  datatype Failure =
    | ValidationFailed(fieldErrors: seq<FieldError>)     // MethodArgumentNotValidException
    | UnauthorizedAccess(message: string)                // UnauthorizedAccessException
    | AccountNotFound(accountId: string)                 // AccountNotFoundException
    | CreditLimitExceeded(amount: Amount, limit: Amount) // CreditLimitExceededException
    | InsufficientBalance(available: Amount, required: Amount) // InsufficientBalanceException
    | IllegalArgument(message: string)                   // AccountService rejecting an amount
    | IllegalState(message: string)                      // no authenticated user; debit without funds
    | OptimisticLock(accountId: string)                  // a write from a stale version
    | ColumnOverflow(accountId: string)                  // a balance outside DECIMAL(19, 4)
    | LoanRegistrationFailed(message: string)            // the loan-management system refused
    | NullReference                                      // NullPointerException

  const NotFoundPrefix: string := "Account not found: "
  const LimitLead: string := "Loan amount "
  const LimitMiddle: string := " exceeds credit limit "
  const BalanceLead: string := "Insufficient balance. Available: "
  const BalanceMiddle: string := ", Required: "

  /** `lead + first + middle + last`, with `first` found right after `lead`,
      `middle` between `first` and `last`, and `last` at the very end. */
  function Embed(lead: string, first: string, middle: string, last: string): (r: string)
    ensures |r| == |lead| + |first| + |middle| + |last|
    ensures r[..|lead|] == lead && r[|lead|..|lead| + |first|] == first
    ensures r[|lead| + |first|..|r| - |last|] == middle
    ensures r[|r| - |last|..] == last
  {
    var r := lead + first + middle + last;
    assert r[|lead| + |first|..|r| - |last|] == middle;
    assert r[..|lead|] == lead;
    assert r[|lead|..|lead| + |first|] == first;
    assert r[|r| - |last|..] == last;
    r
  }

  /** The message of `CreditLimitExceededException`: the requested amount
      right after the lead text, then " exceeds credit limit ", then the limit
      at the very end, each amount rendered so that it reads back to itself
      (`Format`). */
  function LimitMessage(amount: Amount, limit: Amount): (r: string)
    ensures |r| == |LimitLead| + |Format(amount)| + |LimitMiddle| + |Format(limit)|
    ensures r[..|LimitLead|] == LimitLead
    ensures r[|LimitLead|..|LimitLead| + |Format(amount)|] == Format(amount)
    ensures r[|LimitLead| + |Format(amount)|..|r| - |Format(limit)|] == LimitMiddle
    ensures r[|r| - |Format(limit)|..] == Format(limit)
  {
    Embed(LimitLead, Format(amount), LimitMiddle, Format(limit))
  }

  /** The message of `InsufficientBalanceException`: the available balance
      right after the lead text, then ", Required: ", then the required amount
      at the very end. */
  function BalanceMessage(available: Amount, required: Amount): (r: string)
    ensures |r| == |BalanceLead| + |Format(available)| + |BalanceMiddle| + |Format(required)|
    ensures r[..|BalanceLead|] == BalanceLead
    ensures r[|BalanceLead|..|BalanceLead| + |Format(available)|] == Format(available)
    ensures r[|BalanceLead| + |Format(available)|..|r| - |Format(required)|] == BalanceMiddle
    ensures r[|r| - |Format(required)|..] == Format(required)
  {
    Embed(BalanceLead, Format(available), BalanceMiddle, Format(required))
  }

  /** Both amounts can be read back out of a limit message. */
  lemma LimitMessageReadsBack(amount: Amount, limit: Amount)
    ensures var r := LimitMessage(amount, limit);
      Parse(r[|LimitLead|..|LimitLead| + |Format(amount)|]) == Some(amount)
      && Parse(r[|r| - |Format(limit)|..]) == Some(limit)
  {
  }

  /** Both amounts can be read back out of a balance message. */
  lemma BalanceMessageReadsBack(available: Amount, required: Amount)
    ensures var r := BalanceMessage(available, required);
      Parse(r[|BalanceLead|..|BalanceLead| + |Format(available)|]) == Some(available)
      && Parse(r[|r| - |Format(required)|..]) == Some(required)
  {
  }

  /** The exception's `getMessage()`: the id at the end of a not-found
      message, both amounts in the limit and balance messages, and the
      caller's text for an access refusal. */
  function ExceptionMessage(e: Failure): (r: string)
    ensures e.AccountNotFound? ==> |r| == |NotFoundPrefix| + |e.accountId| && r[..|NotFoundPrefix|] == NotFoundPrefix && r[|NotFoundPrefix|..] == e.accountId
    ensures e.CreditLimitExceeded? ==> r == LimitMessage(e.amount, e.limit)
    ensures e.InsufficientBalance? ==> r == BalanceMessage(e.available, e.required)
    ensures e.UnauthorizedAccess? ==> r == e.message
  {
    match e
    case ValidationFailed(_) => ValidationMessage
    case UnauthorizedAccess(m) => m
    case AccountNotFound(id) =>
      var r := NotFoundPrefix + id;
      assert r[..|NotFoundPrefix|] == NotFoundPrefix && r[|NotFoundPrefix|..] == id;
      r
    case CreditLimitExceeded(amount, limit) =>
      LimitMessage(amount, limit)
    case InsufficientBalance(available, required) =>
      BalanceMessage(available, required)
    case IllegalArgument(m) => m
    case IllegalState(m) => m
    case OptimisticLock(id) => "Stale version of account " + id
    case ColumnOverflow(id) => "Balance out of range for account " + id
    case LoanRegistrationFailed(m) => m
    case NullReference => ""
  }

  /** The body of every error response. `errors` is Java's nullable map. */
  datatype ErrorResponse = ErrorResponse(status: int, message: string, errors: Option<map<string, string>>)

  const BadRequest: int := 400
  const Forbidden: int := 403
  const NotFound: int := 404
  const UnprocessableEntity: int := 422
  const InternalServerError: int := 500

  const ValidationMessage: string := "Validation failed"
  const GenericMessage: string := "An unexpected error occurred. Please try again later."

  /** The exceptions that have a dedicated handler; everything else reaches the catch-all. */
  predicate HasHandler(e: Failure) {
    e.ValidationFailed? || e.UnauthorizedAccess? || e.AccountNotFound?
    || e.InsufficientBalance? || e.CreditLimitExceeded?
  }

  /** No later entry of `errs` names the same field as entry `i`. */
  predicate IsLastFor(errs: seq<FieldError>, i: int)
    requires 0 <= i < |errs|
  {
    forall j :: i < j < |errs| ==> errs[j].field != errs[i].field
  }

  /** The fields named in `errs`. */
  function Fields(errs: seq<FieldError>): set<string> {
    set i | 0 <= i < |errs| :: errs[i].field
  }

  /** The field-to-message map built by putting each error in turn, so that a
      field's later error overwrites its earlier one. */
  function FieldErrorMap(errs: seq<FieldError>): map<string, string>
    decreases |errs|
  {
    if errs == [] then map[]
    else
      var last := errs[|errs| - 1];
      FieldErrorMap(errs[..|errs| - 1])[last.field := last.message]
  }

  lemma FieldsSnoc(errs: seq<FieldError>)
    requires errs != []
    ensures Fields(errs) == Fields(errs[..|errs| - 1]) + {errs[|errs| - 1].field}
  {
  }

  /** The map holds exactly the fields that failed. */
  lemma {:induction false} FieldErrorMapKeys(errs: seq<FieldError>)
    ensures FieldErrorMap(errs).Keys == Fields(errs)
    decreases |errs|
  {
    if errs != [] {
      FieldErrorMapKeys(errs[..|errs| - 1]);
      FieldsSnoc(errs);
    }
  }

  /** Each field's message is the last one reported for it. */
  lemma {:induction false} FieldErrorMapLastWins(errs: seq<FieldError>, i: int)
    requires 0 <= i < |errs| && IsLastFor(errs, i)
    ensures errs[i].field in FieldErrorMap(errs)
    ensures FieldErrorMap(errs)[errs[i].field] == errs[i].message
    decreases |errs|
  {
    var prefix := errs[..|errs| - 1];
    var last := errs[|errs| - 1];
    if i < |prefix| {
      assert last.field != errs[i].field;
      assert prefix[i] == errs[i];
      assert IsLastFor(prefix, i) by {
        forall j | i < j < |prefix| ensures prefix[j].field != prefix[i].field {
          assert prefix[j] == errs[j];
        }
      }
      FieldErrorMapLastWins(prefix, i);
    }
  }

  /** The global exception handler: a total map from exception to error body. */
  function Handle(e: Failure): (r: ErrorResponse)
    ensures r.status in {BadRequest, Forbidden, NotFound, UnprocessableEntity, InternalServerError}
    ensures r.status == Forbidden <==> e.UnauthorizedAccess?
    ensures r.status == NotFound <==> e.AccountNotFound?
    ensures r.status == UnprocessableEntity <==> e.InsufficientBalance?
    ensures r.status == BadRequest <==> e.ValidationFailed? || e.CreditLimitExceeded?
    ensures r.status == InternalServerError <==> !HasHandler(e)
    ensures r.errors.Some? <==> e.ValidationFailed?
    ensures e.ValidationFailed? ==> r.message == ValidationMessage
    ensures e.ValidationFailed? ==> r.errors.value.Keys == Fields(e.fieldErrors)
    ensures e.ValidationFailed? ==>
      forall i :: 0 <= i < |e.fieldErrors| && IsLastFor(e.fieldErrors, i) ==>
        r.errors.value[e.fieldErrors[i].field] == e.fieldErrors[i].message
    ensures HasHandler(e) && !e.ValidationFailed? ==> r.message == ExceptionMessage(e)
    ensures !HasHandler(e) ==> r.message == GenericMessage
  {
    match e
    case ValidationFailed(errs) =>
      FieldErrorMapKeys(errs);
      forall i | 0 <= i < |errs| && IsLastFor(errs, i)
        ensures FieldErrorMap(errs)[errs[i].field] == errs[i].message
      {
        FieldErrorMapLastWins(errs, i);
      }
      ErrorResponse(BadRequest, ValidationMessage, Some(FieldErrorMap(errs)))
    case UnauthorizedAccess(_) => ErrorResponse(Forbidden, ExceptionMessage(e), None)
    case AccountNotFound(_) => ErrorResponse(NotFound, ExceptionMessage(e), None)
    case InsufficientBalance(_, _) => ErrorResponse(UnprocessableEntity, ExceptionMessage(e), None)
    case CreditLimitExceeded(_, _) => ErrorResponse(BadRequest, ExceptionMessage(e), None)
    case _ => ErrorResponse(InternalServerError, GenericMessage, None)
  }

  /** The catch-all reveals nothing of the exception: any two unhandled
      exceptions produce the same body. */
  lemma CatchAllIsOpaque(e1: Failure, e2: Failure)
    requires !HasHandler(e1) && !HasHandler(e2)
    ensures Handle(e1) == Handle(e2)
  {
  }

  /** A not-found body names the missing account. */
  lemma NotFoundNamesAccount(id: string)
    ensures Handle(AccountNotFound(id)).message == NotFoundPrefix + id
    ensures Handle(AccountNotFound(id)).message[|NotFoundPrefix|..] == id
  {
  }
}

=== FILE: loan_controller.dfy ===
/** The borrow-and-transfer decision procedure (controller/LoanController.java):
    `borrowMoney` for an account's owner and `adminBorrowMoney` for an
    administrator, as pure functions from the state before the request to the
    state after it and the response or exception. */
module LoanController {
  import opened Wrappers
  import opened Money
  import opened Errors
  import opened Accounts
  import opened AccountService
  import opened LoanRequests
  import opened AuthContext
  import opened LoanRegistry

  /** Which endpoint runs: the owner's own request, or an administrator's on
      the owner's behalf. */
  datatype Path = SelfService | Admin

  /** The success body (dto/LoanResponse.java); `processedBy` is set only on
      the admin path. */
  datatype LoanResponse = LoanResponse(
    loanId: string,
    accountId: AccountId,
    sourceAccountId: AccountId,
    loanAmount: Amount,
    newBalance: Amount,
    status: string,
    message: string,
    processedBy: Option<UserId>,
    timestamp: Instant)

  /** Everything a request can change: the accounts and the remote registry. */
  datatype State = State(accounts: Store, registry: Registry)

  /** The state a run leaves behind and what it returned or threw. */
  datatype Run<T> = Run(state: State, result: Result<T, Failure>)

  const SuccessStatus: string := "SUCCESS"
  const UserSuccessMessage: string := "Loan processed successfully"
  const AdminSuccessMessage: string := "Admin loan processed successfully"
  const NotOwnerMessage: string := "You are not authorized to access this account"

  /** Debit the source, credit the destination, register the loan. Each step
      that succeeds leaves its effect in the state, also when a later step
      throws; undoing them is the transaction's job. */
  function Transfer(st: State, sourceId: AccountId, destId: AccountId, amount: Amount,
                    borrower: Option<UserId>, loanId: string, now: Instant): Run<()>
    requires sourceId in st.accounts && destId in st.accounts
  {
    match Debit(st.accounts, sourceId, amount, now)
    case Err(e) => Run(st, Err(e))
    case Ok(debited) =>
      match Credit(debited, destId, amount, now)
      case Err(e) => Run(State(debited, st.registry), Err(e))
      case Ok(credited) =>
        match RegisterLoan(st.registry, Loan(loanId, amount, borrower))
        case Err(e) => Run(State(credited, st.registry), Err(e))
        case Ok(registry) => Run(State(credited, registry), Ok(()))
  }

  /** The success body. `dest` is the destination as read at the first gate. */
  function Response(path: Path, user: UserId, accountId: AccountId, sourceId: AccountId,
                    amount: Amount, dest: Account, loanId: string, now: Instant): LoanResponse
  {
    LoanResponse(
      loanId, accountId, sourceId, amount, dest.balance + amount, SuccessStatus,
      if path == SelfService then UserSuccessMessage else AdminSuccessMessage,
      if path == SelfService then None else Some(user),
      now)
  }

  /** The method body after the current user is known: the gates in their
      fixed order, then the transfer. */
  function Process(path: Path, st: State, user: UserId, accountId: AccountId, sourceId: AccountId,
                   amount: Amount, limit: Amount, loanId: string, now: Instant): Run<LoanResponse>
  {
    match GetAccount(st.accounts, accountId)
    case None => Run(st, Err(AccountNotFound(accountId)))
    case Some(dest) =>
      if path == SelfService && dest.owner != Some(user) then
        Run(st, Err(UnauthorizedAccess(NotOwnerMessage)))
      else if amount > limit then
        Run(st, Err(CreditLimitExceeded(amount, limit)))
      else
        match GetAccount(st.accounts, sourceId)
        case None => Run(st, Err(AccountNotFound(sourceId)))
        case Some(source) =>
          if source.balance < amount then
            Run(st, Err(InsufficientBalance(source.balance, amount)))
          else
            var borrower := if path == SelfService then Some(user) else dest.owner;
            var t := Transfer(st, sourceId, accountId, amount, borrower, loanId, now);
            match t.result
            case Err(e) => Run(t.state, Err(e))
            case Ok(_) => Run(t.state, Ok(Response(path, user, accountId, sourceId, amount, dest, loanId, now)))
  }

  /** `@Transactional(rollbackFor = Exception.class)`: any exception restores
      the state the transaction started from. */
  function Transactional<T>(initial: State, run: Run<T>): Run<T> {
    if run.result.Err? then Run(initial, run.result) else run
  }

  /** One endpoint call: bean validation of the body, then, inside the
      transaction, the current user and the method body. */
  function Endpoint(path: Path, st: State, auth: Option<Authentication>, accountId: AccountId,
                    req: LoanRequest, limit: Amount, loanId: string, now: Instant): Run<LoanResponse>
  {
    var violations := Validate(req);
    if violations != [] then Run(st, Err(ValidationFailed(violations)))
    else
      Transactional(st,
        match GetCurrentUserId(auth)
        case Err(e) => Run(st, Err(e))
        case Ok(user) =>
          Process(path, st, user, accountId, req.sourceAccountId.value, req.loanAmount.value, limit, loanId, now))
  }

  /** `borrowMoney`: all or nothing, and on success a SUCCESS body echoing the
      request, with the destination's balance as read plus the amount. No
      balance goes negative and the stored rows stay well formed. */
  function BorrowMoney(st: State, auth: Option<Authentication>, accountId: AccountId,
                       req: LoanRequest, limit: Amount, loanId: string, now: Instant): (r: Run<LoanResponse>)
    ensures r.result.Err? ==> r.state == st
    ensures r.result.Ok? ==>
      && IsValid(req) && GetCurrentUserId(auth).Ok?
      && accountId in st.accounts
      && r.result.value == LoanResponse(
           loanId, accountId, req.sourceAccountId.value, req.loanAmount.value,
           st.accounts[accountId].balance + req.loanAmount.value, SuccessStatus,
           UserSuccessMessage, None, now)
    ensures NonNegative(st.accounts) ==> NonNegative(r.state.accounts)
    ensures WellFormed(st.accounts) ==> WellFormed(r.state.accounts)
  {
    Endpoint(SelfService, st, auth, accountId, req, limit, loanId, now)
  }

  /** `adminBorrowMoney`, reached only with the ADMIN role. The same
      guarantees as `borrowMoney`, with the admin's id in `processedBy`. */
  function AdminBorrowMoney(st: State, auth: Option<Authentication>, accountId: AccountId,
                            req: LoanRequest, limit: Amount, loanId: string, now: Instant): (r: Run<LoanResponse>)
    requires IsAdmin(auth) == Ok(true)
    ensures r.result.Err? ==> r.state == st
    ensures r.result.Ok? ==>
      && IsValid(req) && auth.value.authenticated
      && accountId in st.accounts
      && r.result.value == LoanResponse(
           loanId, accountId, req.sourceAccountId.value, req.loanAmount.value,
           st.accounts[accountId].balance + req.loanAmount.value, SuccessStatus,
           AdminSuccessMessage, Some(auth.value.name), now)
    ensures r.result.Err? ==> !r.result.error.UnauthorizedAccess?
    ensures NonNegative(st.accounts) ==> NonNegative(r.state.accounts)
    ensures WellFormed(st.accounts) ==> WellFormed(r.state.accounts)
  {
    Endpoint(Admin, st, auth, accountId, req, limit, loanId, now)
  }

  /** The request got past bean validation and an authenticated user is
      known, so the method body runs. */
  predicate Admitted(auth: Option<Authentication>, req: LoanRequest) {
    IsValid(req) && GetCurrentUserId(auth).Ok?
  }

  /** Every gate of `path` lets the request through. */
  predicate GatesPass(path: Path, st: State, user: UserId, accountId: AccountId,
                      sourceId: AccountId, amount: Amount, limit: Amount)
  {
    && accountId in st.accounts
    && (path == SelfService ==> st.accounts[accountId].owner == Some(user))
    && amount <= limit
    && sourceId in st.accounts
    && amount <= st.accounts[sourceId].balance
  }

  /** Once the gates pass, the credit and the registration succeed: the
      destination's new balance fits its column and the registry accepts the
      loan. (The amount is positive already, by validation.) */
  predicate TransferGoesThrough(st: State, sourceId: AccountId, accountId: AccountId, amount: Amount)
    requires accountId in st.accounts
  {
    && (sourceId == accountId || FitsColumn(st.accounts[accountId].balance + amount))
    && st.registry.available
  }

  /** A request succeeds exactly when it is valid, a user is authenticated,
      every gate passes and the transfer goes through; on either path. */
  lemma SucceedsIff(path: Path, st: State, auth: Option<Authentication>, accountId: AccountId,
                    req: LoanRequest, limit: Amount, loanId: string, now: Instant)
    requires WellFormed(st.accounts)
    ensures Endpoint(path, st, auth, accountId, req, limit, loanId, now).result.Ok? <==>
      && Admitted(auth, req)
      && GatesPass(path, st, auth.value.name, accountId, req.sourceAccountId.value, req.loanAmount.value, limit)
      && TransferGoesThrough(st, req.sourceAccountId.value, accountId, req.loanAmount.value)
  {
  }

  /** A missing destination is reported before the owner, the limit or the
      source is looked at, and nothing changes. */
  lemma DestinationCheckedFirst(path: Path, st: State, auth: Option<Authentication>, accountId: AccountId,
                                req: LoanRequest, limit: Amount, loanId: string, now: Instant)
    requires Admitted(auth, req) && accountId !in st.accounts
    ensures Endpoint(path, st, auth, accountId, req, limit, loanId, now) == Run(st, Err(AccountNotFound(accountId)))
  {
  }

  /** Self-service: a destination whose owner is not the current user, a
      null owner included, is refused and nothing changes. */
  lemma OwnerMismatchRejected(st: State, auth: Option<Authentication>, accountId: AccountId,
                              req: LoanRequest, limit: Amount, loanId: string, now: Instant)
    requires Admitted(auth, req) && accountId in st.accounts
    requires st.accounts[accountId].owner != Some(auth.value.name)
    ensures BorrowMoney(st, auth, accountId, req, limit, loanId, now) == Run(st, Err(UnauthorizedAccess(NotOwnerMessage)))
  {
  }

  /** The limit gate is strict: an amount above the limit is refused, before
      the source is looked up, and an amount equal to the limit passes it. */
  lemma CreditLimitGate(path: Path, st: State, auth: Option<Authentication>, accountId: AccountId,
                        req: LoanRequest, limit: Amount, loanId: string, now: Instant)
    requires Admitted(auth, req) && accountId in st.accounts
    requires path == SelfService ==> st.accounts[accountId].owner == Some(auth.value.name)
    ensures req.loanAmount.value > limit ==>
      Endpoint(path, st, auth, accountId, req, limit, loanId, now)
        == Run(st, Err(CreditLimitExceeded(req.loanAmount.value, limit)))
    ensures req.loanAmount.value == limit ==>
      var r := Endpoint(path, st, auth, accountId, req, limit, loanId, now);
      r.result.Err? ==> !r.result.error.CreditLimitExceeded?
  {
  }

  /** The source is looked up only after the limit gate; a missing source is
      then reported under its own id. */
  lemma SourceCheckedAfterLimit(path: Path, st: State, auth: Option<Authentication>, accountId: AccountId,
                                req: LoanRequest, limit: Amount, loanId: string, now: Instant)
    requires Admitted(auth, req) && accountId in st.accounts
    requires path == SelfService ==> st.accounts[accountId].owner == Some(auth.value.name)
    requires req.loanAmount.value <= limit && req.sourceAccountId.value !in st.accounts
    ensures Endpoint(path, st, auth, accountId, req, limit, loanId, now)
      == Run(st, Err(AccountNotFound(req.sourceAccountId.value)))
  {
  }

  /** A source balance below the amount is refused with both figures and
      nothing changes. */
  lemma InsufficientBalanceRejected(path: Path, st: State, auth: Option<Authentication>, accountId: AccountId,
                                    req: LoanRequest, limit: Amount, loanId: string, now: Instant)
    requires Admitted(auth, req) && accountId in st.accounts
    requires path == SelfService ==> st.accounts[accountId].owner == Some(auth.value.name)
    requires req.loanAmount.value <= limit && req.sourceAccountId.value in st.accounts
    requires st.accounts[req.sourceAccountId.value].balance < req.loanAmount.value
    ensures Endpoint(path, st, auth, accountId, req, limit, loanId, now)
      == Run(st, Err(InsufficientBalance(st.accounts[req.sourceAccountId.value].balance, req.loanAmount.value)))
  {
  }

  /** Borrowing exactly the source's balance is allowed and leaves the
      source at zero. */
  lemma ExactBalanceEmptiesSource(path: Path, st: State, auth: Option<Authentication>, accountId: AccountId,
                                  req: LoanRequest, limit: Amount, loanId: string, now: Instant)
    requires WellFormed(st.accounts) && Admitted(auth, req)
    requires GatesPass(path, st, auth.value.name, accountId, req.sourceAccountId.value, req.loanAmount.value, limit)
    requires TransferGoesThrough(st, req.sourceAccountId.value, accountId, req.loanAmount.value)
    requires req.sourceAccountId.value != accountId
    requires st.accounts[req.sourceAccountId.value].balance == req.loanAmount.value
    ensures var r := Endpoint(path, st, auth, accountId, req, limit, loanId, now);
      r.result.Ok? && r.state.accounts[req.sourceAccountId.value].balance == 0
  {
  }

  /** On success exactly the amount moves from the source to the
      destination (no net change when they are the same account), every
      other account is untouched, and one loan for `borrower` is registered. */
  lemma SuccessMovesMoney(path: Path, st: State, auth: Option<Authentication>, accountId: AccountId,
                          req: LoanRequest, limit: Amount, loanId: string, now: Instant)
    requires Endpoint(path, st, auth, accountId, req, limit, loanId, now).result.Ok?
    ensures var r := Endpoint(path, st, auth, accountId, req, limit, loanId, now);
      var sourceId, amount := req.sourceAccountId.value, req.loanAmount.value;
      && Admitted(auth, req)
      && sourceId in st.accounts && accountId in st.accounts
      && r.state.accounts.Keys == st.accounts.Keys
      && (sourceId != accountId ==>
            && r.state.accounts[sourceId].balance == st.accounts[sourceId].balance - amount
            && r.state.accounts[accountId].balance == st.accounts[accountId].balance + amount)
      && (sourceId == accountId ==>
            r.state.accounts[accountId].balance == st.accounts[accountId].balance)
      && (forall k :: k in st.accounts && k != sourceId && k != accountId ==> r.state.accounts[k] == st.accounts[k])
      && r.state.registry.loans == st.registry.loans + [Loan(loanId, amount,
           if path == SelfService then Some(auth.value.name) else st.accounts[accountId].owner)]
  {
  }

  /** No request creates or destroys money: the sum of all balances after it
      equals the sum before, whatever the outcome. */
  lemma ConservesMoney(path: Path, st: State, auth: Option<Authentication>, accountId: AccountId,
                       req: LoanRequest, limit: Amount, loanId: string, now: Instant)
    ensures TotalBalance(Endpoint(path, st, auth, accountId, req, limit, loanId, now).state.accounts)
      == TotalBalance(st.accounts)
  {
    var r := Endpoint(path, st, auth, accountId, req, limit, loanId, now);
    if r.result.Ok? {
      var sourceId, amount := req.sourceAccountId.value, req.loanAmount.value;
      DebitThenCreditConserves(st.accounts, sourceId, accountId, amount, now, now);
    }
  }

  /** The rollback is what makes the call all-or-nothing: when the registry
      refuses the loan, the body has already moved the money, yet the
      request leaves every account as it found it. */
  lemma RegistrationFailureRollsBack(path: Path, st: State, auth: Option<Authentication>, accountId: AccountId,
                                     req: LoanRequest, limit: Amount, loanId: string, now: Instant)
    requires WellFormed(st.accounts) && Admitted(auth, req)
    requires GatesPass(path, st, auth.value.name, accountId, req.sourceAccountId.value, req.loanAmount.value, limit)
    requires TransferGoesThrough(st.(registry := st.registry.(available := true)), req.sourceAccountId.value, accountId, req.loanAmount.value)
    requires !st.registry.available
    ensures Process(path, st, auth.value.name, accountId, req.sourceAccountId.value, req.loanAmount.value, limit, loanId, now).state != st
    ensures Endpoint(path, st, auth, accountId, req, limit, loanId, now)
      == Run(st, Err(LoanRegistrationFailed(RegistrationFailedMessage)))
  {
  }

  /** The reported new balance is the destination's balance after the
      transfer exactly when the source is a different account; borrowing
      from the destination itself reports the amount as gained although the
      stored balance is unchanged. */
  lemma NewBalanceMatchesStoreIffDistinct(path: Path, st: State, auth: Option<Authentication>, accountId: AccountId,
                                          req: LoanRequest, limit: Amount, loanId: string, now: Instant)
    requires Endpoint(path, st, auth, accountId, req, limit, loanId, now).result.Ok?
    ensures var r := Endpoint(path, st, auth, accountId, req, limit, loanId, now);
      accountId in r.state.accounts
      && (r.result.value.newBalance == r.state.accounts[accountId].balance <==> req.sourceAccountId.value != accountId)
  {
  }

  /** The admin path differs from the self-service one only in skipping the
      ownership gate: for a destination the admin owns, both paths leave the
      same state and fail with the same exception. */
  lemma AdminSkipsOnlyOwnership(st: State, auth: Option<Authentication>, accountId: AccountId,
                                req: LoanRequest, limit: Amount, loanId: string, now: Instant)
    requires IsAdmin(auth) == Ok(true) && Admitted(auth, req)
    requires accountId in st.accounts && st.accounts[accountId].owner == Some(auth.value.name)
    ensures var a := AdminBorrowMoney(st, auth, accountId, req, limit, loanId, now);
      var u := BorrowMoney(st, auth, accountId, req, limit, loanId, now);
      a.state == u.state && a.result.Ok? == u.result.Ok? && (a.result.Err? ==> a.result.error == u.result.error)
  {
  }

  /** The admin path registers the loan to the destination's owner, not to
      the admin, and names the admin in the response. */
  lemma AdminRegistersForOwner(st: State, auth: Option<Authentication>, accountId: AccountId,
                               req: LoanRequest, limit: Amount, loanId: string, now: Instant)
    requires IsAdmin(auth) == Ok(true)
    requires AdminBorrowMoney(st, auth, accountId, req, limit, loanId, now).result.Ok?
    ensures var r := AdminBorrowMoney(st, auth, accountId, req, limit, loanId, now);
      && accountId in st.accounts
      && r.state.registry.loans == st.registry.loans + [Loan(loanId, req.loanAmount.value, st.accounts[accountId].owner)]
      && r.result.value.processedBy == Some(auth.value.name)
  {
  }
}

=== FILE: loan_registry.dfy ===
/** The external loan-management system's registration call, as an abstract
    effect (service/LoanManagementService.java). */
module LoanRegistry {
  import opened Wrappers
  import opened Money
  import opened Errors

  /** A registered loan. The borrower is nullable, as the admin path passes
      the destination's owner field. */
  datatype Loan = Loan(loanId: string, amount: Amount, borrower: Option<string>)

  /** The remote system as the model sees it: the loans it has accepted and
      whether its next registration call succeeds. */
  datatype Registry = Registry(loans: seq<Loan>, available: bool)

  const RegistrationFailedMessage: string := "Loan registration failed"

  /** `registerLoan`: appends the loan when the system is available and
      throws otherwise. */
  function RegisterLoan(reg: Registry, loan: Loan): (r: Result<Registry, Failure>)
    ensures r.Ok? <==> reg.available
    ensures r.Ok? ==> r.value.loans == reg.loans + [loan] && r.value.available == reg.available
    ensures r.Err? ==> r.error == LoanRegistrationFailed(RegistrationFailedMessage)
  {
    if reg.available then Ok(reg.(loans := reg.loans + [loan]))
    else Err(LoanRegistrationFailed(RegistrationFailedMessage))
  }
}

=== FILE: loan_request.dfy ===
/** The loan request body (dto/LoanRequest.java) and its bean-validation
    constraints. */
module LoanRequests {
  import opened Wrappers
  import opened Money
  import opened Errors

  /** Both fields are nullable, as in the Java bean. The constructor, getters
      and setters are this datatype's constructor, destructors and update
      expressions. */
  datatype LoanRequest = LoanRequest(sourceAccountId: Option<string>, loanAmount: Option<Amount>)

  /** The `@DecimalMin("0.01")` bound in units of 0.0001; the bound is inclusive. */
  const MinLoanAmount: Amount := 100

  const SourceField: string := "sourceAccountId"
  const AmountField: string := "loanAmount"
  const SourceRequired: string := "Source account ID is required"
  const AmountRequired: string := "Loan amount is required"
  const AmountTooSmall: string := "Loan amount must be greater than zero"

  /** Nothing is left once leading and trailing characters up to U+0020 are
      trimmed: the string is empty or whitespace only. */
  predicate IsBlank(s: string) {
    forall i :: 0 <= i < |s| ==> s[i] <= ' '
  }

  /** `@NotBlank`: present and not blank. */
  predicate SourceOk(source: Option<string>) {
    source.Some? && !IsBlank(source.value)
  }

  /** `@NotNull` together with the inclusive `@DecimalMin("0.01")`. */
  predicate AmountOk(amount: Option<Amount>) {
    amount.Some? && amount.value >= MinLoanAmount
  }

  /** The request passes every constraint. */
  predicate IsValid(req: LoanRequest) {
    SourceOk(req.sourceAccountId) && AmountOk(req.loanAmount)
  }

  /** The violations of `@NotBlank` on the source id. */
  function SourceViolations(source: Option<string>): seq<FieldError> {
    if source.None? || IsBlank(source.value) then [FieldError(SourceField, SourceRequired)] else []
  }

  /** The violations on the amount. `@DecimalMin` accepts null, so a missing
      amount breaks `@NotNull` alone. */
  function AmountViolations(amount: Option<Amount>): seq<FieldError> {
    match amount
    case None => [FieldError(AmountField, AmountRequired)]
    case Some(v) => if v < MinLoanAmount then [FieldError(AmountField, AmountTooSmall)] else []
  }

  /** Validation of the request body: the constraint violations found. The
      request is accepted exactly when there are none, each violation names
      a field the request has, no field is reported twice, and each message
      is reported exactly when its constraint is broken. */
  function Validate(req: LoanRequest): (errors: seq<FieldError>)
    ensures errors == [] <==> IsValid(req)
    ensures forall i :: 0 <= i < |errors| ==> errors[i].field in {SourceField, AmountField}
    ensures forall i, j :: 0 <= i < j < |errors| ==> errors[i].field != errors[j].field
    ensures SourceField in Fields(errors) <==> !SourceOk(req.sourceAccountId)
    ensures AmountField in Fields(errors) <==> !AmountOk(req.loanAmount)
    ensures FieldError(SourceField, SourceRequired) in errors <==> !SourceOk(req.sourceAccountId)
    ensures FieldError(AmountField, AmountRequired) in errors <==> req.loanAmount.None?
    ensures FieldError(AmountField, AmountTooSmall) in errors
      <==> req.loanAmount.Some? && req.loanAmount.value < MinLoanAmount
  {
    var source := SourceViolations(req.sourceAccountId);
    var amount := AmountViolations(req.loanAmount);
    var errors := source + amount;
    assert SourceField != AmountField by {
      assert SourceField[0] != AmountField[0];
    }
    assert |source| <= 1 && |amount| <= 1;
    assert Fields(errors) == Fields(source) + Fields(amount) by {
      assert forall i :: 0 <= i < |source| ==> errors[i] == source[i];
      assert forall i :: 0 <= i < |amount| ==> errors[|source| + i] == amount[i];
    }
    assert Fields(source) == (if source == [] then {} else {SourceField}) by {
      if source != [] {
        assert source[0].field == SourceField;
      }
    }
    assert Fields(amount) == (if amount == [] then {} else {AmountField}) by {
      if amount != [] {
        assert amount[0].field == AmountField;
      }
    }
    errors
  }

  /** A source id that is missing, empty or whitespace only is refused. */
  lemma BlankSourceRejected(amount: Option<Amount>, blank: string)
    requires IsBlank(blank)
    ensures Validate(LoanRequest(None, amount)) != []
    ensures Validate(LoanRequest(Some(""), amount)) != []
    ensures Validate(LoanRequest(Some(blank), amount)) != []
    ensures Validate(LoanRequest(Some(" \t\n"), amount)) != []
  {
  }

  /** The amount bound is inclusive: 0.0099 is refused, 0.01 is accepted; a
      missing amount is refused whatever the source. */
  lemma AmountBoundary(source: string)
    requires !IsBlank(source)
    ensures Validate(LoanRequest(Some(source), Some(99))) == [FieldError(AmountField, AmountTooSmall)]
    ensures Validate(LoanRequest(Some(source), Some(MinLoanAmount))) == []
    ensures Validate(LoanRequest(Some(source), None)) == [FieldError(AmountField, AmountRequired)]
  {
  }

  /** The documented example amounts 100.00, 1500.50 and 0.01 are valid. */
  lemma DocumentedExamplesValid(source: string)
    requires !IsBlank(source)
    ensures Validate(LoanRequest(Some(source), Some(1_000_000))) == []
    ensures Validate(LoanRequest(Some(source), Some(15_005_000))) == []
    ensures Validate(LoanRequest(Some(source), Some(100))) == []
  {
  }
}

=== FILE: money.dfy ===
/** Exact decimal money. A balance is a `BigDecimal` stored in a DECIMAL(19, 4)
    column (model/Account.java:47), so the model counts money in units of
    0.0001 and never uses floating point. */
module Money {
  import opened Wrappers

  /** An amount in units of 0.0001. */
  type Amount = int

  /** Units in one whole currency unit: scale 4. */
  const UnitsPerWhole: int := 10000

  /** The largest magnitude a DECIMAL(19, 4) column holds: nineteen digits of units. */
  const ColumnMax: int := 9_999_999_999_999_999_999

  /** The amount fits the balance column's precision and scale. */
  predicate FitsColumn(a: Amount) {
    -ColumnMax <= a <= ColumnMax
  }

  predicate IsDigit(c: char) {
    '0' <= c <= '9'
  }

  predicate AllDigits(s: string) {
    forall i :: 0 <= i < |s| ==> IsDigit(s[i])
  }

  function DigitChar(d: nat): (c: char)
    requires d < 10
    ensures IsDigit(c)
  {
    (48 + d) as char
  }

  function DigitValue(c: char): (d: nat)
    requires IsDigit(c)
    ensures d < 10
  {
    c as int - 48
  }

  /** Decimal digits of `n`, most significant first, without leading zeros. */
  function Digits(n: nat): (s: string)
    ensures |s| >= 1 && AllDigits(s)
    decreases n
  {
    if n < 10 then [DigitChar(n)] else Digits(n / 10) + [DigitChar(n % 10)]
  }

  /** The number a string of decimal digits denotes. */
  function ValueOfDigits(s: string): nat
    requires AllDigits(s)
    decreases |s|
  {
    if s == [] then 0 else ValueOfDigits(s[..|s| - 1]) * 10 + DigitValue(s[|s| - 1])
  }

  /** The four fraction digits of a scale-4 amount, zero-padded. */
  function FractionDigits(f: nat): (s: string)
    requires f < UnitsPerWhole
    ensures |s| == 4 && AllDigits(s)
  {
    [DigitChar(f / 1000), DigitChar(f / 100 % 10), DigitChar(f / 10 % 10), DigitChar(f % 10)]
  }

  /** Plain decimal rendering at scale 4, as in "-12.0500": a sign only for
      a negative amount, a point before exactly four fraction digits, and a
      text that reads back as the same amount. */
  function Format(a: Amount): (s: string)
    ensures |s| >= 6 && s[|s| - 5] == '.'
    ensures (s[0] == '-') <==> a < 0
    ensures Parse(s) == Some(a)
  {
    var m: nat := if a < 0 then -a else a;
    var whole := Digits(m / UnitsPerWhole);
    var fraction := FractionDigits(m % UnitsPerWhole);
    var s := (if a < 0 then "-" else "") + whole + "." + fraction;
    DigitsRoundTrip(m / UnitsPerWhole);
    FractionDigitsRoundTrip(m % UnitsPerWhole);
    assert s[|s| - 4..] == fraction;
    assert (if s[0] == '-' then s[1..|s| - 5] else s[..|s| - 5]) == whole by {
      if a >= 0 {
        assert s[0] == whole[0];
      }
    }
    s
  }

  /** Reads back a scale-4 rendering: an optional minus sign, at least one
      digit, a point and exactly four digits. */
  function Parse(s: string): (r: Option<Amount>)
    ensures r.Some? ==> |s| >= 6 && s[|s| - 5] == '.'
  {
    if |s| < 6 || s[|s| - 5] != '.' then None
    else
      var negative := s[0] == '-';
      var whole := if negative then s[1..|s| - 5] else s[..|s| - 5];
      var fraction := s[|s| - 4..];
      if whole == [] || !AllDigits(whole) || !AllDigits(fraction) then None
      else
        var m := ValueOfDigits(whole) * UnitsPerWhole + ValueOfDigits(fraction);
        Some(if negative then -m else m)
  }

  lemma {:induction false} DigitsRoundTrip(n: nat)
    ensures ValueOfDigits(Digits(n)) == n
    decreases n
  {
    if n >= 10 {
      var s := Digits(n);
      DigitsRoundTrip(n / 10);
      assert s[..|s| - 1] == Digits(n / 10);
    }
  }

  lemma FractionDigitsRoundTrip(f: nat)
    requires f < UnitsPerWhole
    ensures ValueOfDigits(FractionDigits(f)) == f
  {
    var s := FractionDigits(f);
    assert s[..1] == [DigitChar(f / 1000)];
    assert s[..2] == [DigitChar(f / 1000), DigitChar(f / 100 % 10)];
    assert s[..3] == s[..2] + [DigitChar(f / 10 % 10)];
    assert ValueOfDigits(s[..1]) == f / 1000;
    assert ValueOfDigits(s[..2]) == f / 100;
    assert ValueOfDigits(s[..3]) == f / 10;
  }
}

=== FILE: wrappers.dfy ===
/** Option and Result: the model's stand-ins for a Java reference that may be
    null and for a call that may throw. */
module Wrappers {

  /** A value that may be absent (a nullable reference). */
  datatype Option<+T> = None | Some(value: T)

  /** The outcome of a call that either returns a value or throws an error. */
  datatype Result<+T, +E> = Ok(value: T) | Err(error: E)
}
